=== FILE: README.md ===
# WikfiniteScroll — a Dafny model of the feed logic

WikfiniteScroll is an endless feed of random Wikipedia summaries. Each batch
fetches a few article summaries and renders one post per article. A promotional
"top story" card is inserted after every fifth post. The reader can keep a list
of favorites, which is saved in the browser's storage.

This project models the logic of `src/app.js` that is not DOM or network glue,
as pure functions over immutable data:

- `optional.dfy` (`Optional`): `Option`, which stands for JavaScript's
  `undefined`/`null`.
- `decimal.dfy` (`Decimal`): the plain decimal text of an integer `pageid`
  inside a template literal, and a parser that inverts it.
- `strings.dfy` (`Strings`): `lastIndexOf`, `split` and `join` on one separator
  character, and the fact that `split(' ').slice(0, -1).join(' ')` is the text
  before the last space.
- `truncate.dfy` (`Truncate`): `truncateText`.
- `articles.dfy` (`Articles`): the fields of the summary response, and
  `fetchRandomWikipedia`'s normalisation into an article record.
- `favorites.dfy` (`Favorites`): `isFavorited`, `toggleFavorite` with its
  write-back to storage, `initFavorites` and `showFavorites`.
- `news.dfy` (`News`): the news list and the `createNewsPost` rotation cursor.
- `feed.dfy` (`Feed`): the session record (`newsIndex`, `postCount`, `loading`,
  `articlesLoaded`, `favorites`), `resetState`, the data `createPost` puts on a
  card, and `loadPosts`.
- `feed_properties.dfy` (`FeedProperties`): what a `loadPosts` batch does,
  stated without reference to the loop.

`loadPosts` is modelled in two phases:

- `StartBatch` checks and sets the `loading` guard.
- `FinishBatch` runs the loop.

The inputs to a batch are a sequence of slots, one per loop iteration. A slot
holds the fetch outcome and the category drawn for the card. `count` is the
number of slots. A batch yields the state after it and the cards it appended,
in order. A card is either a post (element id, category, excerpt, favorited
flag, article) or a news card (the position in the news list it shows).

The property proofs compare the loop with an independent description,
`Interleave`. It takes the posts of the fetched articles in slot order. After
each post that brings the counter to a multiple of five, it inserts a news card
taken from the rotator. `WellPlaced` states the placement rule card by card.

Reading a missing `extract` throws in `truncateText`. `loadPosts` has no
`try`/`finally`, so such an article aborts the batch. The cards rendered before
it stay on the page, `articlesLoaded` is not increased, and `loading` stays
`true`. Every later call then returns at once. The model keeps this behaviour
as written: `Batch.threw`, `FeedProperties.LoadPostsThrowing`.

## Model

| member | source | states |
|---|---|---|
| Strings.LastIndexOf | src/app.js:62 | The result is -1 or an index of the character, and no later position holds it. |
| Strings.Split | src/app.js:68 | At least one part; no part contains the separator; joining the parts with the separator gives back the input. |
| Strings.Join | src/app.js:68 | No parts join to ""; the first part starts the result, and with a second part the separator follows it. |
| Strings.SplitDropLastJoin | src/app.js:68 | Without the separator in the text, splitting, dropping the last part and joining gives "". |
| Strings.JoinAllButLast | src/app.js:68 | Splitting at a separator, dropping the last part and joining again gives the text before the last separator, or "" when there is none. |
| Truncate.TruncateText | src/app.js:58-69 | A text of at most `maxLength` characters is returned unchanged; any result is at most `maxLength + 3` characters long. |
| Truncate.TruncateAtPeriod | src/app.js:61-66 | When the last '.' among the first `maxLength` characters lies past 60% of `maxLength`, the result is the text up to and including that '.'. It ends in '.' and has at most `maxLength` characters. |
| Truncate.TruncateAtSpace | src/app.js:64-68 | With no qualifying '.', the result is the text before the last ' ' among the first `maxLength` characters, followed by "...". |
| Truncate.TruncateWithoutSpace | src/app.js:64-68 | With no qualifying '.' and no ' ' among the first `maxLength` characters (`maxLength` 0 included), the result is exactly "...". |
| Truncate.EarlyPeriodIgnored | src/app.js:64-68 | A '.' at or before the 60% mark does not end the cut: the result ends with "...". |
| Articles.ThumbnailOf | src/app.js:80 | A thumbnail comes only from a present `thumbnail.source` and is never ""; a non-empty `thumbnail.source` is always kept. So an absent, null or empty source becomes no thumbnail. |
| Articles.FetchRandomWikipedia | src/app.js:71-87 | There is an article exactly when the request and the parse succeeded and `content_urls.desktop` exists. Title, extract, url and pageid are copied through; the thumbnail is `thumbnail.source` or none. |
| Articles.FetchSummaryOf | src/app.js:76-82 | Every article with a non-empty thumbnail or none comes back unchanged from the summary it would be read from. |
| Articles.FetchedIsNormalised | src/app.js:80 | A fetched article never has an empty thumbnail. |
| Favorites.IsFavorited | src/app.js:89-91 | True exactly when some entry has the pageid. |
| Favorites.FindIndex | src/app.js:94 | The index of the first entry with the pageid, or -1 when there is none. |
| Favorites.ToggleToast | src/app.js:96-102 | The toast says "ADDED TO FAVORITES" exactly when the toggle added, and "REMOVED FROM FAVORITES" exactly when it removed. |
| Favorites.ToggleFavorite | src/app.js:93-108 | Reports "added" exactly when the pageid was absent. On adding, the article is appended at the end; on removing, the list is one shorter. Whether any other pageid is favorited does not change. |
| Favorites.RemoveFirstIsFilter | src/app.js:94-97 | On a list without repeated pageids, splicing out the first match removes every entry with that pageid and keeps the others in order. |
| Favorites.RemoveFromUnique | src/app.js:96-97 | Removing an entry from a list without repeated pageids leaves that pageid absent and no pageid repeated. |
| Favorites.ToggleOnUniqueList | src/app.js:93-107 | On a list without repeated pageids, the result has none either, and `isFavorited` afterwards equals the returned flag. The new list is the old one with the article appended, or the old one without that pageid. |
| Favorites.ToggleTwiceAbsent | src/app.js:94-101 | Toggling an absent article twice restores exactly the original list. |
| Favorites.ToggleTwicePresent | src/app.js:94-101 | Toggling a present article twice, on a list without repeated pageids, keeps the length and the set of favorited pageids. |
| Favorites.ToggleRemovesFirst | src/app.js:94-97 | On any list, removal splices out exactly the first entry with the article's pageid; every other entry keeps its order and contents. |
| Favorites.RepeatedIdSurvivesToggle | src/app.js:94-97 | On any list where two entries share the article's pageid, the toggle reports "not favorited" while the pageid is still in the list, since only the first match is removed (`ToggleRemovesFirst`). |
| Favorites.InitFavorites | src/app.js:45-52 | A stored list loads as the list that was written; an absent or unreadable slot loads as []. |
| Favorites.StoreToggle | src/app.js:93-104 | The toggle writes a list back to the slot, and loading that slot gives exactly the list the toggle left in memory. |
| Favorites.LoadPersisted | src/app.js:45-52 | Loading what was written gives back exactly the list written. |
| Favorites.StoreToggleReloads | src/app.js:93-104 | After a toggle writes the list back, loading the slot gives the list the toggle left in memory; a stored list without repeated pageids stays so. |
| Favorites.StoredListsStayUnique | src/app.js:93-104 | Any run of toggles, each written back, keeps a stored list free of repeated pageids. |
| Favorites.ShowFavorites | src/app.js:127-134 | The message is "NO FAVORITES YET" exactly when the list is empty. |
| Favorites.ShowOneFavorite | src/app.js:133 | One favorite gives "1 FAVORITE SAVED". |
| Favorites.ShowManyFavorites | src/app.js:133 | Two or more favorites give exactly "<n> FAVORITES SAVED", with n the decimal length of the list. |
| Favorites.SavedCountOfShowFavorites | src/app.js:127-134 | The number at the front of the message reads back as the number of favorites; the empty-list message reads as 0. |
| Decimal.NatToString | src/app.js:133 | A count becomes one or more digits with no leading zero; it starts with '0' exactly when it is 0, i.e. it is "0". |
| Decimal.IntToString | src/app.js:139 | A non-negative integer becomes digits only, with no leading zero; a negative one becomes '-' followed by digits not starting with '0'. |
| Decimal.ParseIntToString | src/app.js:139 | The decimal text of an integer parses back to that integer. |
| Feed.PostId | src/app.js:139 | The element id is "post-" followed by the pageid's decimal text, which reads back as the pageid, or by "undefined" when there is none. |
| Feed.PostIdInjective | src/app.js:139 | Different pageids give different element ids. |
| News.NextNews | src/app.js:184-186 | A call hands out a position below 5 and moves the cursor by one; the next call hands out the following position, wrapping after 4. |
| News.NewsRun | src/app.js:184-186 | `count` consecutive calls from a cursor hand out positions `(cursor + i) % 5`. |
| News.RotateNews | src/app.js:184-186 | Call `i` from the cursor yields `newsArticles[(cursor + i) % 5]`, and the cursor ends `count` further on. |
| News.RotationWrapsAround | src/app.js:185 | The rotator repeats every five calls. |
| Feed.ResetState | src/app.js:262-268 | All counters are 0, the guard is clear and the favorites list is empty; the state is consistent: `newsIndex` is `postCount / 5`. |
| Feed.CreatePost | src/app.js:136-182 | A card exists exactly when the article has an extract. It keeps the article, its `post-<pageid>` id and the drawn category. Its favorited flag is `isFavorited(pageid)`. Its excerpt is `truncateText(extract, 200)`: at most 203 characters, and the extract itself when that has at most 200. |
| Feed.Posts | src/app.js:240-244 | At most one post per slot, and every element is a post card. |
| FeedProperties.PostsSingle | src/app.js:240-244 | One slot yields its card when its fetch gives an article with an extract, and nothing otherwise. |
| FeedProperties.PostsConcat | src/app.js:239-244 | The posts of two runs of slots, one after the other, are the posts of the first followed by those of the second. |
| Feed.SlotStep | src/app.js:240-252 | One loop iteration throws exactly when the fetched article has no extract; otherwise the guard, the favorites and the loaded count are left alone. |
| Feed.RunSlots | src/app.js:239-256 | The loop throws exactly when some slot throws; it leaves the guard, the favorites and the loaded count alone. |
| Feed.StartBatch | src/app.js:230-235 | Refused exactly when a batch is in flight. Otherwise the guard is set, and placeholders are cleared exactly when `articlesLoaded` is 0. |
| Feed.LoadPosts | src/app.js:229-260 | A call while a batch is in flight changes nothing and appends nothing. Otherwise it throws exactly when some slot throws, the guard ends set exactly when it threw, and the favorites are untouched. |
| Feed.FinishBatch | src/app.js:239-259 | The batch throws exactly when some slot throws, and the guard stays set exactly when it threw. |
| FeedProperties.NewsCountIsMultiples | src/app.js:246-251 | The number of news cards from `added` more posts is the number of multiples of five in `postCount + 1 .. postCount + added`. |
| FeedProperties.InterleaveKeepsPosts | src/app.js:242-252 | Leaving out the news cards gives back exactly the posts, in order. |
| FeedProperties.InterleaveNews | src/app.js:249-251 | The news cards show the rotator's consecutive items, one per multiple of five that the counter reaches. |
| FeedProperties.InterleavePlacement | src/app.js:246-252 | A card is a news card exactly when it follows a post that brought the counter to a multiple of five. |
| FeedProperties.InterleaveConcat | src/app.js:239-256 | Interleaving two runs of posts one after the other equals interleaving them together. |
| FeedProperties.RunSlotsIsInterleave | src/app.js:239-256 | When no slot throws, the loop appends exactly the interleaving of the slots' posts. `postCount` grows by the number of posts, and `newsIndex` by the number of news cards. |
| FeedProperties.SlotStepKeepsConsistent | src/app.js:240-252 | One loop iteration keeps `newsIndex` equal to `postCount / 5`. |
| FeedProperties.RunSlotsKeepsConsistent | src/app.js:239-256 | The loop keeps `newsIndex` equal to `postCount / 5`, also when it throws part-way. |
| FeedProperties.LoadPostsKeepsConsistent | src/app.js:229-268 | Every call of `loadPosts`, whether refused, completed or thrown, keeps `newsIndex` equal to `postCount / 5`; with `resetState` this holds in every reachable state. |
| FeedProperties.LoadPostsWhileLoading | src/app.js:230 | While a batch is in flight, a call changes nothing and adds no cards. |
| FeedProperties.OverlappingCallIgnored | src/app.js:229-231 | A call made after a batch has started and before it finished is ignored. |
| FeedProperties.LoadPostsBatch | src/app.js:229-260 | When no slot throws: the posts appear in slot order, with the rotator's items after every fifth post. `postCount` grows by the number of posts and `articlesLoaded` by `count`. The guard ends clear. |
| FeedProperties.LoadPostsThrowing | src/app.js:229-260 | A fetched article without an extract aborts the batch. The guard stays set, `articlesLoaded` is unchanged, and every later call is ignored. |
| FeedProperties.PostsAllFailed | src/app.js:240-242 | Slots whose fetches all fail yield no posts. |
| FeedProperties.PostsAllFetched | src/app.js:240-244 | Slots that all yield a post give one post per slot, in slot order. |
| FeedProperties.FailedBatchReleasesGuard | src/app.js:239-259 | A batch whose fetches all fail adds no cards and keeps the counter. It clears the guard, so the next call is accepted. |
| FeedProperties.InterleaveFive | src/app.js:246-251 | Five posts from a multiple of five get exactly one news card, after the fifth. |
| FeedProperties.FirstFullBatch | src/app.js:229-268 | After a reset, five fetched articles give five posts and then the first news item; `postCount` is 5, `newsIndex` is 1 and the guard is clear. |

## Left out

- DOM construction, the HTML templates, `handleFavorite` and `handleShare` (src/app.js:141-227) are UI glue. A card keeps only its id, category, excerpt, favorited flag and article.
- `showToast` and its 2.5 s timer are left out. `ToggleToast` and `ShowFavorites` return the message that would be shown.
- The 100 ms pause between iterations of `loadPosts` is a timer with no logic.
- The network `fetch` and `response.json()` are I/O. Their outcome is the `Response` datatype: a failed request, a body that does not parse (or reads as `null`), or the body's fields. Values of the wrong JSON type are not modelled.
- `localStorage` and `JSON.parse`/`JSON.stringify` are I/O. The stored slot is an `Option<seq<Article>>`, where `None` means absent, empty or unreadable, and `Persist` stands for writing the list back.
- `getRandomCategory` draws from `Math.random`. The drawn category is an input of each slot.
- `shareToTwitter` is a thin wrapper around `window.open` and `encodeURIComponent`.
- `console.error`, the removal of skeleton placeholders and the `postCount`/`favCount` text are external effects. Only the decision to clear the placeholders is modelled.
- The `favorites` setter (src/app.js:292) is not an operation of the model. A list it sets may repeat pageids: `ToggleRemovesFirst` says which entry a toggle then removes, and `RepeatedIdSurvivesToggle` that the pageid stays favorited.
- Fetches are awaited one after the other, and the model has only that order. Starting all fetches at once and loading images eagerly are not what the code does, so they are not modelled.
- The favorites list is held fixed during a batch. A toggle between two awaited fetches, which would change the favorited flag of later cards, is not modelled.
- Negative or fractional `count` and `maxLength` are not modelled: both are `nat` here.
- Truncate.TruncateText: the test `lastPeriod > maxLength * 0.6` is computed in floating point in the code, but here it is the integer test `5 * lastPeriod > 3 * maxLength`. The two agree when `3 * maxLength / 5` is below 2^53.
- Favorites.InitFavorites: a slot holding valid JSON that is not an array is not modelled. For the text `null` the code loads `null` (src/app.js:47), and later favorite operations throw on it; here such a slot is `None` and loads as [].
- Feed.PostId: `None` stands for both `undefined` and `null`. A JSON `"pageid": null` renders as `post-null` in the code but as `post-undefined` here, and the `===` comparisons that tell `null` from `undefined` (src/app.js:90, 94) treat both as the same absent pageid.
- Decimal.IntToString: the text is plain decimal. JavaScript prints magnitudes of 10^21 and above in exponent form, and pageids above 2^53 lose precision as JavaScript numbers; neither is modelled.
- Strings are sequences of characters. JavaScript measures lengths in UTF-16 code units; the model does not distinguish the two.
- Feed.RunSlots and Feed.FinishBatch state the outcome of a batch that throws only through `threw` and the guard. The cards appended before the throw are in the model but have no contract of their own.

=== FILE: articles.dfy ===
/** `fetchRandomWikipedia`: turns what the summary endpoint returned into an
    article record, or into `None` when anything along the way failed. */
module Articles {
  import opened Optional

  /** The normalised article. A field the response lacked stays `None`
      (JavaScript `undefined`); `thumbnail` is `None` for `null`. */
  datatype Article = Article(
    title: Option<string>,
    extract: Option<string>,
    url: Option<string>,
    thumbnail: Option<string>,
    pageid: Option<int>)

  /** The parts of the parsed JSON body that the normalisation reads.
      `None` marks a member that is absent or `null`. */
  datatype Thumbnail = Thumbnail(source: Option<string>)
  datatype Desktop = Desktop(page: Option<string>)
  datatype ContentUrls = ContentUrls(desktop: Option<Desktop>)
  datatype Summary = Summary(
    title: Option<string>,
    extract: Option<string>,
    contentUrls: Option<ContentUrls>,
    thumbnail: Option<Thumbnail>,
    pageid: Option<int>)

  /** What the transport produced for one request to the summary endpoint: a rejected
      request, a body that failed to parse (or parsed to `null`), or a body. */
  datatype Response = NetworkError | BadBody | Body(data: Summary)

  /** `data.thumbnail?.source || null`: a missing, null or empty source is no thumbnail. */
  function ThumbnailOf(thumbnail: Option<Thumbnail>): (r: Option<string>)
    ensures r.Some? ==> r.value != ""
    ensures r.Some? ==> thumbnail.Some? && thumbnail.value.source == r
    ensures thumbnail.Some? && thumbnail.value.source.Some? && thumbnail.value.source.value != "" ==>
              r == thumbnail.value.source
  {
    match thumbnail
    case Some(Thumbnail(Some(source))) => if source == "" then None else Some(source)
    case _ => None
  }

  /** The article a response normalises to. Reading
      `content_urls.desktop.page` throws when either object is missing, and the
      function then yields `None` like a failed request does. */
  function FetchRandomWikipedia(response: Response): (article: Option<Article>)
    ensures article.Some? <==>
      response.Body? && response.data.contentUrls.Some? && response.data.contentUrls.value.desktop.Some?
    ensures article.Some? ==>
      && article.value.title == response.data.title
      && article.value.extract == response.data.extract
      && article.value.url == response.data.contentUrls.value.desktop.value.page
      && article.value.pageid == response.data.pageid
    ensures article.Some? && article.value.thumbnail.Some? ==>
      && response.data.thumbnail.Some?
      && response.data.thumbnail.value.source == article.value.thumbnail
  {
    match response
    case Body(data) =>
      (match data.contentUrls
       case Some(ContentUrls(Some(desktop))) =>
         Some(Article(data.title, data.extract, desktop.page, ThumbnailOf(data.thumbnail), data.pageid))
       case _ => None)
    case _ => None
  }

  /** An article as the normalisation can produce it: its thumbnail, if any, is not empty. */
  predicate Normalised(article: Article) {
    article.thumbnail != Some("")
  }

  /** The summary an article would have been read from. */
  function SummaryOf(article: Article): Summary {
    Summary(
      article.title,
      article.extract,
      Some(ContentUrls(Some(Desktop(article.url)))),
      match article.thumbnail case None => None case Some(source) => Some(Thumbnail(Some(source))),
      article.pageid)
  }

  /** Every normalised article is produced, unchanged, from its own summary;
      together with the thumbnail clause of `ThumbnailOf` this makes the
      normalised articles exactly the possible results. */
  lemma FetchSummaryOf(article: Article)
    requires Normalised(article)
    ensures FetchRandomWikipedia(Body(SummaryOf(article))) == Some(article)
  {
  }

  /** Whatever the response, a fetched article is normalised. */
  lemma FetchedIsNormalised(response: Response)
    requires FetchRandomWikipedia(response).Some?
    ensures Normalised(FetchRandomWikipedia(response).value)
  {
  }
}

=== FILE: decimal.dfy ===
/** Plain decimal rendering of integers, which is what JavaScript's string
    conversion produces for integers of magnitude below 10^21, with a parser
    that inverts it. */
module Decimal {
  import opened Optional

  predicate IsDigit(c: char) {
    '0' <= c <= '9'
  }

  predicate AllDigits(s: string) {
    forall i :: 0 <= i < |s| ==> IsDigit(s[i])
  }

  function DigitValue(c: char): (d: nat)
    requires IsDigit(c)
    ensures d < 10
  {
    c as int - '0' as int
  }

  function DigitChar(d: nat): (c: char)
    requires d < 10
    ensures IsDigit(c) && DigitValue(c) == d
  {
    ('0' as int + d) as char
  }

  /** `String(n)` for a non-negative integer: its digits, most significant first. */
  function NatToString(n: nat): (s: string)
    ensures |s| >= 1 && AllDigits(s)
    ensures |s| == 1 || s[0] != '0'
    ensures s[0] == '0' <==> n == 0
  {
    if n < 10 then [DigitChar(n)] else NatToString(n / 10) + [DigitChar(n % 10)]
  }

  /** The number a run of decimal digits denotes. */
  function ParseDigits(s: string): nat
    requires AllDigits(s)
  {
    if |s| == 0 then 0 else 10 * ParseDigits(s[..|s| - 1]) + DigitValue(s[|s| - 1])
  }

  /** `String(i)` for an integer in plain decimal notation: an optional '-'
      and then the digits. */
  function IntToString(i: int): (r: string)
    ensures i >= 0 ==> |r| >= 1 && AllDigits(r) && (|r| == 1 || r[0] != '0')
    ensures i < 0 ==> |r| >= 2 && r[0] == '-' && AllDigits(r[1..]) && r[1] != '0'
  {
    if i < 0 then "-" + NatToString(-i) else NatToString(i)
  }

  /** Reads back an optionally signed run of digits; anything else is `None`. */
  function ParseInt(s: string): Option<int> {
    if |s| >= 2 && s[0] == '-' && AllDigits(s[1..]) then Some(-(ParseDigits(s[1..]) as int))
    else if |s| >= 1 && AllDigits(s) then Some(ParseDigits(s))
    else None
  }

  /** The longest prefix of `s` made of digits. */
  function LeadingDigits(s: string): (d: string)
    ensures AllDigits(d) && d <= s
  {
    if |s| == 0 || !IsDigit(s[0]) then "" else [s[0]] + LeadingDigits(s[1..])
  }

  lemma {:induction false} ParseNatToString(n: nat)
    ensures ParseDigits(NatToString(n)) == n
  {
    if n >= 10 {
      var s := NatToString(n);
      assert s[..|s| - 1] == NatToString(n / 10);
      ParseNatToString(n / 10);
    }
  }

  /** Rendering an integer and reading it back gives the integer. */
  lemma ParseIntToString(i: int)
    ensures ParseInt(IntToString(i)) == Some(i)
  {
    var s := IntToString(i);
    if i < 0 {
      assert s[1..] == NatToString(-i);
      ParseNatToString(-i);
    } else {
      ParseNatToString(i);
    }
  }

  /** Distinct integers render to distinct strings. */
  lemma IntToStringInjective(i: int, j: int)
    ensures IntToString(i) == IntToString(j) ==> i == j
  {
    ParseIntToString(i);
    ParseIntToString(j);
  }

  /** The digits of a number stop where the first non-digit begins. */
  lemma {:induction false} LeadingDigitsOfPrefix(d: string, rest: string)
    requires AllDigits(d)
    requires |rest| == 0 || !IsDigit(rest[0])
    ensures LeadingDigits(d + rest) == d
  {
    if |d| > 0 {
      assert (d + rest)[1..] == d[1..] + rest;
      LeadingDigitsOfPrefix(d[1..], rest);
    } else {
      assert d + rest == rest;
    }
  }
}

=== FILE: favorites.dfy ===
/** The favorites list: an ordered sequence of article snapshots keyed by
    `pageid`, loaded from and written back to one storage slot. */
module Favorites {
  import opened Optional
  import opened Articles
  import opened Decimal

  /** `favorites.some(fav => fav.pageid === pageid)`. */
  function IsFavorited(favorites: seq<Article>, pageid: Option<int>): (found: bool)
    ensures found <==> exists i :: 0 <= i < |favorites| && favorites[i].pageid == pageid
  {
    if |favorites| == 0 then false
    else if favorites[0].pageid == pageid then true
    else
      var found := IsFavorited(favorites[1..], pageid);
      assert forall i :: 1 <= i < |favorites| ==> favorites[i] == favorites[1..][i - 1];
      found
  }

  /** `favorites.findIndex(fav => fav.pageid === pageid)`: the first match, or -1. */
  function FindIndex(favorites: seq<Article>, pageid: Option<int>): (index: int)
    ensures -1 <= index < |favorites|
    ensures index >= 0 ==> favorites[index].pageid == pageid
    ensures forall j :: 0 <= j < |favorites| && (index < 0 || j < index) ==> favorites[j].pageid != pageid
  {
    if |favorites| == 0 then -1
    else if favorites[0].pageid == pageid then 0
    else
      var rest := FindIndex(favorites[1..], pageid);
      if rest < 0 then -1 else rest + 1
  }

  /** No two entries share a `pageid`. */
  predicate UniqueIds(favorites: seq<Article>) {
    forall i, j :: 0 <= i < j < |favorites| ==> favorites[i].pageid != favorites[j].pageid
  }

  /** The list after a toggle, and whether the article was added. */
  datatype Toggled = Toggled(favorites: seq<Article>, added: bool)

  /** `toggleFavorite`: removes the first entry with the article's `pageid`,
      or appends the article when there is none; reports whether it was absent. */
  function ToggleFavorite(favorites: seq<Article>, article: Article): (t: Toggled)
    ensures t.added <==> !IsFavorited(favorites, article.pageid)
    ensures t.added ==> t.favorites == favorites + [article]
    ensures !t.added ==> |t.favorites| == |favorites| - 1
    ensures forall id :: id != article.pageid ==> IsFavorited(t.favorites, id) == IsFavorited(favorites, id)
  {
    var index := FindIndex(favorites, article.pageid);
    if index > -1 then
      var removed := favorites[..index] + favorites[index + 1..];
      assert forall i :: 0 <= i < |favorites| && i != index ==>
        favorites[i] == removed[if i < index then i else i - 1];
      Toggled(removed, false)
    else
      assert forall i :: 0 <= i < |favorites| ==> favorites[i] == (favorites + [article])[i];
      Toggled(favorites + [article], true)
  }

  /** The notification a toggle shows. */
  function ToggleToast(t: Toggled): (message: string)
    ensures message == "ADDED TO FAVORITES" <==> t.added
    ensures message == "REMOVED FROM FAVORITES" <==> !t.added
  {
    if t.added then "ADDED TO FAVORITES" else "REMOVED FROM FAVORITES"
  }

  /** The entries whose `pageid` differs from `pageid`, in their order. */
  function WithoutId(favorites: seq<Article>, pageid: Option<int>): seq<Article> {
    if |favorites| == 0 then []
    else (if favorites[0].pageid == pageid then [] else [favorites[0]]) + WithoutId(favorites[1..], pageid)
  }

  /** Removing the first match from a list without repeated ids removes
      every entry with that id and keeps the others in order. */
  lemma {:induction false} RemoveFirstIsFilter(favorites: seq<Article>, index: nat)
    requires UniqueIds(favorites)
    requires index < |favorites|
    ensures favorites[..index] + favorites[index + 1..] == WithoutId(favorites, favorites[index].pageid)
  {
    var id := favorites[index].pageid;
    if index == 0 {
      WithoutIdAbsent(favorites[1..], id);
      assert favorites[..0] + favorites[1..] == favorites[1..];
    } else {
      var tail := favorites[1..];
      assert UniqueIds(tail);
      assert tail[index - 1] == favorites[index];
      RemoveFirstIsFilter(tail, index - 1);
      assert favorites[..index] == [favorites[0]] + tail[..index - 1];
      assert favorites[index + 1..] == tail[index..];
    }
  }

  /** Filtering out an id that no entry has changes nothing. */
  lemma {:induction false} WithoutIdAbsent(favorites: seq<Article>, pageid: Option<int>)
    requires forall i :: 0 <= i < |favorites| ==> favorites[i].pageid != pageid
    ensures WithoutId(favorites, pageid) == favorites
  {
    if |favorites| > 0 {
      WithoutIdAbsent(favorites[1..], pageid);
    }
  }

  /** On a list without repeated ids, a toggle adds the article at the end
      when it was absent and otherwise removes exactly its entry, keeping the
      other entries in order; either way the result reports the new state. */
  lemma ToggleOnUniqueList(favorites: seq<Article>, article: Article)
    requires UniqueIds(favorites)
    ensures var t := ToggleFavorite(favorites, article);
            && UniqueIds(t.favorites)
            && IsFavorited(t.favorites, article.pageid) == t.added
            && t.favorites == if t.added then favorites + [article] else WithoutId(favorites, article.pageid)
  {
    var index := FindIndex(favorites, article.pageid);
    if index > -1 {
      RemoveFromUnique(favorites, index);
    } else {
      var t := ToggleFavorite(favorites, article);
      assert t.favorites[|favorites|] == article;
    }
  }

  /** Removing one entry from a list without repeated ids leaves no entry
      with its id and no repeated id. */
  lemma RemoveFromUnique(favorites: seq<Article>, index: nat)
    requires UniqueIds(favorites)
    requires index < |favorites|
    ensures var removed := favorites[..index] + favorites[index + 1..];
            && UniqueIds(removed)
            && !IsFavorited(removed, favorites[index].pageid)
            && removed == WithoutId(favorites, favorites[index].pageid)
  {
    RemoveFirstIsFilter(favorites, index);
    var removed := favorites[..index] + favorites[index + 1..];
    assert forall i :: 0 <= i < |removed| ==>
      removed[i] == favorites[if i < index then i else i + 1];
  }

  /** Toggling an absent article twice gives back exactly the original list. */
  lemma ToggleTwiceAbsent(favorites: seq<Article>, article: Article)
    requires !IsFavorited(favorites, article.pageid)
    ensures var once := ToggleFavorite(favorites, article);
            once.added && ToggleFavorite(once.favorites, article) == Toggled(favorites, false)
  {
    var extended := favorites + [article];
    assert FindIndex(extended, article.pageid) == |favorites|;
    assert extended[..|favorites|] == favorites;
  }

  /** Toggling a present article twice, on a list without repeated ids, gives
      back the same length and the same favorited ids; the article's entry
      moves to the end. */
  lemma ToggleTwicePresent(favorites: seq<Article>, article: Article)
    requires UniqueIds(favorites)
    requires IsFavorited(favorites, article.pageid)
    ensures var once := ToggleFavorite(favorites, article);
            var twice := ToggleFavorite(once.favorites, article);
            && !once.added && twice.added
            && |twice.favorites| == |favorites|
            && forall id :: IsFavorited(twice.favorites, id) == IsFavorited(favorites, id)
  {
    ToggleOnUniqueList(favorites, article);
    var once := ToggleFavorite(favorites, article);
    var twice := ToggleFavorite(once.favorites, article);
    assert twice.favorites[|once.favorites|] == article;
    assert IsFavorited(twice.favorites, article.pageid);
  }

  /** Removal splices out the first entry with the pageid, and only it: the
      entries before and after it keep their order and contents. */
  lemma ToggleRemovesFirst(favorites: seq<Article>, article: Article, i: nat)
    requires i < |favorites| && favorites[i].pageid == article.pageid
    requires forall k :: 0 <= k < i ==> favorites[k].pageid != article.pageid
    ensures ToggleFavorite(favorites, article) == Toggled(favorites[..i] + favorites[i + 1..], false)
  {
    assert FindIndex(favorites, article.pageid) == i;
  }

  /** A list with a repeated id, as the setter or the stored slot may hold:
      only the first match is spliced out, so the article stays favorited and
      the returned `false` no longer reports the state. */
  lemma RepeatedIdSurvivesToggle(favorites: seq<Article>, article: Article, i: nat, j: nat)
    requires i < j < |favorites|
    requires favorites[i].pageid == article.pageid && favorites[j].pageid == article.pageid
    ensures var t := ToggleFavorite(favorites, article);
            !t.added && IsFavorited(t.favorites, article.pageid)
  {
    var index := FindIndex(favorites, article.pageid);
    assert 0 <= index <= i;
    var t := ToggleFavorite(favorites, article);
    assert t.favorites[j - 1] == favorites[j];
  }

  /** The storage slot's contents after `JSON.stringify` of a list. */
  function Persist(favorites: seq<Article>): Option<seq<Article>> {
    Some(favorites)
  }

  /** `initFavorites`: the stored list, where `None` is a slot that is absent,
      empty or not parseable, which loads as the empty list. */
  function InitFavorites(stored: Option<seq<Article>>): (favorites: seq<Article>)
    ensures stored.Some? ==> Persist(favorites) == stored
    ensures stored.None? ==> favorites == []
  {
    match stored
    case Some(list) => list
    case None => []
  }

  /** Writing a list to the slot and loading it again gives the list back. */
  lemma LoadPersisted(favorites: seq<Article>)
    ensures InitFavorites(Persist(favorites)) == favorites
  {
  }

  /** `toggleFavorite` as the slot sees it: the list loaded from the slot is
      toggled and the result written back. */
  function StoreToggle(stored: Option<seq<Article>>, article: Article): (written: Option<seq<Article>>)
    ensures written.Some?
    ensures InitFavorites(written) == ToggleFavorite(InitFavorites(stored), article).favorites
  {
    Persist(ToggleFavorite(InitFavorites(stored), article).favorites)
  }

  /** Loading after a toggle gives the list the toggle left in memory, and a
      slot without repeated pageids keeps none. */
  lemma StoreToggleReloads(stored: Option<seq<Article>>, article: Article)
    ensures InitFavorites(StoreToggle(stored, article)) == ToggleFavorite(InitFavorites(stored), article).favorites
    ensures UniqueIds(InitFavorites(stored)) ==> UniqueIds(InitFavorites(StoreToggle(stored, article)))
  {
    var list := InitFavorites(stored);
    LoadPersisted(ToggleFavorite(list, article).favorites);
    if UniqueIds(list) {
      ToggleOnUniqueList(list, article);
    }
  }

  /** A run of toggles, each written back to the slot. */
  function StoreToggles(stored: Option<seq<Article>>, articles: seq<Article>): (written: Option<seq<Article>>)
    decreases |articles|
  {
    if |articles| == 0 then stored else StoreToggles(StoreToggle(stored, articles[0]), articles[1..])
  }

  /** A slot without repeated pageids, an absent one included, keeps none
      through any run of toggles. */
  lemma {:induction false} StoredListsStayUnique(stored: Option<seq<Article>>, articles: seq<Article>)
    requires UniqueIds(InitFavorites(stored))
    ensures UniqueIds(InitFavorites(StoreToggles(stored, articles)))
    decreases |articles|
  {
    if |articles| > 0 {
      StoreToggleReloads(stored, articles[0]);
      StoredListsStayUnique(StoreToggle(stored, articles[0]), articles[1..]);
    }
  }

  /** `showFavorites`: the message for the number of saved favorites. */
  function ShowFavorites(favorites: seq<Article>): (message: string)
    ensures |favorites| == 0 <==> message == "NO FAVORITES YET"
  {
    var n := |favorites|;
    if n == 0 then "NO FAVORITES YET"
    else
      var digits := NatToString(n);
      var tail := " FAVORITE" + (if n != 1 then "S" else "") + " SAVED";
      assert (digits + tail)[0] == digits[0];
      digits + tail
  }

  /** One favorite is reported in the singular. */
  lemma ShowOneFavorite(favorites: seq<Article>)
    requires |favorites| == 1
    ensures ShowFavorites(favorites) == "1 FAVORITE SAVED"
  {
    var tail := " FAVORITE" + "" + " SAVED";
    assert tail == " FAVORITE SAVED";
    assert ShowFavorites(favorites) == NatToString(1) + tail;
    assert NatToString(1) == "1";
  }

  /** Two or more favorites are reported in the plural. */
  lemma ShowManyFavorites(favorites: seq<Article>)
    requires |favorites| >= 2
    ensures ShowFavorites(favorites) == NatToString(|favorites|) + " FAVORITES SAVED"
    ensures var message := ShowFavorites(favorites);
            |message| >= 7 && message[|message| - 7..] == "S SAVED"
  {
    var digits := NatToString(|favorites|);
    var tail := " FAVORITE" + "S" + " SAVED";
    assert tail == " FAVORITES SAVED";
    assert ShowFavorites(favorites) == digits + tail;
    assert tail[9..] == "S SAVED";
    var message := digits + tail;
    assert message[|message| - 7..] == tail[9..];
  }

  /** The count a favorites message reports: its leading number, or 0. */
  function SavedCount(message: string): nat {
    ParseDigits(LeadingDigits(message))
  }

  /** The count can be read back from the message. */
  lemma SavedCountOfShowFavorites(favorites: seq<Article>)
    ensures SavedCount(ShowFavorites(favorites)) == |favorites|
  {
    var n := |favorites|;
    if n > 0 {
      var digits := NatToString(n);
      var rest := " FAVORITE" + (if n != 1 then "S" else "") + " SAVED";
      assert ShowFavorites(favorites) == digits + rest;
      LeadingDigitsOfPrefix(digits, rest);
      ParseNatToString(n);
    }
  }
}

=== FILE: feed.dfy ===
/** `loadPosts` and the session state it threads: the guard against
    overlapping batches, the per-slot card creation, the post counter and
    the news card inserted after every fifth post. */
module Feed {
  import opened Optional
  import opened Decimal
  import opened Truncate
  import opened Articles
  import opened Favorites
  import opened News

  /** The display categories; which one a card gets is a random draw. */
  datatype Category = Fact | Person | History | Science

  /** The batch size when the caller gives none. */
  const DefaultCount: nat := 5

  /** `postCount % 5 === 0`: a news card follows the post that brings the
      counter to a multiple of five. */
  predicate NewsDue(postCount: nat) {
    postCount % 5 == 0
  }

  /** The process-wide state: rotator cursor, posts rendered so far, the
      in-flight guard, the slots of all finished batches, and the favorites. */
  datatype Session = Session(
    newsIndex: nat,
    postCount: nat,
    loading: bool,
    articlesLoaded: nat,
    favorites: seq<Article>)

  /** The rotator has handed out one item per five posts: `createNewsPost`
      is called exactly when the counter reaches a multiple of five. */
  predicate Consistent(s: Session) {
    s.newsIndex == s.postCount / 5
  }

  /** `resetState`: the state at start-up. */
  function ResetState(): (s: Session)
    ensures !s.loading && s.favorites == []
    ensures s.newsIndex == s.postCount == s.articlesLoaded == 0
    ensures Consistent(s)
  {
    Session(0, 0, false, 0, [])
  }

  /** The element id of an article's card: "post-" and the pageid. */
  function PostId(pageid: Option<int>): (id: string)
    ensures |id| > 5 && id[..5] == "post-"
    ensures pageid.Some? ==> ParseInt(id[5..]) == pageid
    ensures pageid.None? ==> id[5..] == "undefined"
  {
    if pageid.Some? then
      var suffix := IntToString(pageid.value);
      ParseIntToString(pageid.value);
      assert ("post-" + suffix)[5..] == suffix;
      "post-" + suffix
    else
      assert ("post-" + "undefined")[5..] == "undefined";
      "post-" + "undefined"
  }

  /** Different pageids give cards different element ids. */
  lemma PostIdInjective(a: Option<int>, b: Option<int>)
    ensures PostId(a) == PostId(b) ==> a == b
  {
    if PostId(a) == PostId(b) {
      var ta := PostId(a)[5..];
      assert ta == PostId(b)[5..];
      match a {
        case Some(i) => ParseIntToString(i);
        case None =>
      }
      match b {
        case Some(j) => ParseIntToString(j);
        case None =>
      }
    }
  }

  /** A rendered card: an article post, or a news card showing `NewsArticles[index]`. */
  datatype Card =
    | PostCard(id: string, category: Category, excerpt: string, favorited: bool, article: Article)
    | NewsCard(index: nat)

  /** The data `createPost` puts on a card. Truncating a missing extract
      throws, which is `None` here. */
  function CreatePost(article: Article, category: Category, favorites: seq<Article>): (card: Option<Card>)
    ensures card.Some? <==> article.extract.Some?
    ensures card.Some? ==>
      && card.value.PostCard?
      && card.value.article == article
      && card.value.id == PostId(article.pageid)
      && card.value.category == category
      && card.value.favorited == IsFavorited(favorites, article.pageid)
      && card.value.excerpt == TruncateText(article.extract.value, DefaultMaxLength)
      && |card.value.excerpt| <= DefaultMaxLength + 3
      && (|article.extract.value| <= DefaultMaxLength ==> card.value.excerpt == article.extract.value)
  {
    match article.extract
    case None => None
    case Some(text) =>
      Some(PostCard(PostId(article.pageid), category, TruncateText(text, DefaultMaxLength),
        IsFavorited(favorites, article.pageid), article))
  }

  /** One loop iteration's inputs: the fetch outcome and the category drawn
      for the card (unused when the fetch fails). */
  datatype Slot = Slot(response: Response, category: Category)

  /** The card a slot yields, if any. */
  function SlotPost(slot: Slot, favorites: seq<Article>): Option<Card> {
    match FetchRandomWikipedia(slot.response)
    case None => None
    case Some(article) => CreatePost(article, slot.category, favorites)
  }

  /** A slot whose article was fetched but cannot be rendered: creating its card throws. */
  predicate Throws(slot: Slot) {
    var fetched := FetchRandomWikipedia(slot.response);
    fetched.Some? && fetched.value.extract.None?
  }

  /** No slot throws. */
  predicate Renderable(slots: seq<Slot>) {
    forall i :: 0 <= i < |slots| ==> !Throws(slots[i])
  }

  /** The post cards of the slots, in slot order: one per fetched article,
      none for a failed fetch. */
  function Posts(slots: seq<Slot>, favorites: seq<Article>): (posts: seq<Card>)
    ensures |posts| <= |slots|
    ensures forall i :: 0 <= i < |posts| ==> posts[i].PostCard?
  {
    if |slots| == 0 then []
    else
      (match SlotPost(slots[0], favorites) case None => [] case Some(card) => [card])
      + Posts(slots[1..], favorites)
  }

  /** The cards with the news cards left out. */
  function StripNews(cards: seq<Card>): (posts: seq<Card>)
    ensures |posts| <= |cards|
  {
    if |cards| == 0 then []
    else (if cards[0].NewsCard? then [] else [cards[0]]) + StripNews(cards[1..])
  }

  /** The positions in `NewsArticles` the news cards show, in order. */
  function NewsItems(cards: seq<Card>): seq<nat> {
    if |cards| == 0 then []
    else (if cards[0].NewsCard? then [cards[0].index] else []) + NewsItems(cards[1..])
  }

  /** How many news cards `added` more posts bring, starting from `postCount` posts. */
  function NewsCount(postCount: nat, added: nat): nat
    decreases added
  {
    if added == 0 then 0
    else (if NewsDue(postCount + 1) then 1 else 0) + NewsCount(postCount + 1, added - 1)
  }

  /** The posts of a batch with a news card after each post that makes the
      counter, starting at `postCount`, a multiple of five; the news items
      come from the rotator starting at `newsIndex`. */
  function Interleave(posts: seq<Card>, postCount: nat, newsIndex: nat): (cards: seq<Card>)
    ensures |posts| > 0 ==> |cards| > 0 && cards[0] == posts[0]
  {
    if |posts| == 0 then []
    else if NewsDue(postCount + 1) then
      [posts[0], NewsCard(NextNews(newsIndex).index)] + Interleave(posts[1..], postCount + 1, newsIndex + 1)
    else
      [posts[0]] + Interleave(posts[1..], postCount + 1, newsIndex)
  }

  /** One iteration of the loop: the state after it and the cards it
      appended, or `Threw` when creating the card threw. */
  datatype Step = Threw | Stepped(session: Session, cards: seq<Card>)

  /** One iteration of the `loadPosts` loop: a failed fetch appends nothing;
      a fetched article appends its post and counts it, and when the count
      reaches a multiple of five the rotator's next news card follows. */
  function SlotStep(s: Session, slot: Slot): (step: Step)
    ensures step.Threw? <==> Throws(slot)
    ensures step.Stepped? ==>
      && step.session.loading == s.loading
      && step.session.favorites == s.favorites
      && step.session.articlesLoaded == s.articlesLoaded
    ensures step.Stepped? && step.session.postCount == s.postCount ==> step.session.newsIndex == s.newsIndex
    ensures step.Stepped? && step.session.postCount != s.postCount ==>
      && step.session.postCount == s.postCount + 1
      && step.session.newsIndex == s.newsIndex + (if NewsDue(s.postCount + 1) then 1 else 0)
  {
    match FetchRandomWikipedia(slot.response)
    case None => Stepped(s, [])
    case Some(article) =>
      match CreatePost(article, slot.category, s.favorites)
      case None => Threw
      case Some(card) =>
        var count := s.postCount + 1;
        if NewsDue(count) then
          var rotated := NextNews(s.newsIndex);
          Stepped(s.(postCount := count, newsIndex := rotated.cursor), [card, NewsCard(rotated.index)])
        else
          Stepped(s.(postCount := count), [card])
  }

  /** The outcome of (part of) a batch: the state, the cards appended in
      order, and whether the batch threw and stopped. */
  datatype Batch = Batch(session: Session, cards: seq<Card>, threw: bool)

  /** The loop of `loadPosts` over the remaining slots, awaiting one fetch
      after the other; a throwing slot ends it. */
  function RunSlots(s: Session, slots: seq<Slot>): (b: Batch)
    ensures b.session.loading == s.loading
    ensures b.session.favorites == s.favorites
    ensures b.session.articlesLoaded == s.articlesLoaded
    ensures b.threw <==> !Renderable(slots)
    decreases |slots|
  {
    if |slots| == 0 then Batch(s, [], false)
    else
      var rest := slots[1..];
      assert forall i :: 1 <= i < |slots| ==> slots[i] == rest[i - 1];
      match SlotStep(s, slots[0])
      case Threw => Batch(s, [], true)
      case Stepped(next, cards) =>
        var after := RunSlots(next, rest);
        Batch(after.session, cards + after.cards, after.threw)
  }

  /** The first phase of `loadPosts`: refused while a batch is in flight;
      otherwise the guard is set, and placeholders are cleared exactly when
      `articlesLoaded` is 0. */
  datatype Start = Busy | Started(session: Session, clearPlaceholders: bool)

  function StartBatch(s: Session): (start: Start)
    ensures start.Busy? <==> s.loading
    ensures start.Started? ==>
      && start.session == s.(loading := true)
      && (start.clearPlaceholders <==> s.articlesLoaded == 0)
  {
    if s.loading then Busy else Started(s.(loading := true), s.articlesLoaded == 0)
  }

  /** The second phase: run every slot; a batch that did not throw counts
      its slots as loaded and clears the guard. */
  function FinishBatch(s: Session, slots: seq<Slot>): (b: Batch)
    requires s.loading
    ensures b.threw <==> !Renderable(slots)
    ensures b.session.loading <==> b.threw
  {
    var run := RunSlots(s, slots);
    if run.threw then run
    else Batch(run.session.(articlesLoaded := run.session.articlesLoaded + |slots|, loading := false), run.cards, false)
  }

  /** `loadPosts(|slots|)` with nothing else happening in between. */
  function LoadPosts(s: Session, slots: seq<Slot>): (b: Batch)
    ensures s.loading ==> b == Batch(s, [], false)
    ensures !s.loading ==> (b.threw <==> !Renderable(slots)) && (b.session.loading <==> b.threw)
    ensures b.session.favorites == s.favorites
  {
    match StartBatch(s)
    case Busy => Batch(s, [], false)
    case Started(started, _) => FinishBatch(started, slots)
  }
}

=== FILE: feed_properties.dfy ===
/** What a `loadPosts` batch does, stated independently of how the loop
    computes it: the guard, the counters, the posts in slot order and where
    the news cards go. */
module FeedProperties {
  import opened Optional
  import opened Articles
  import opened News
  import opened Feed

  /** Leaving out the news cards distributes over concatenation. */
  lemma {:induction false} StripNewsConcat(a: seq<Card>, b: seq<Card>)
    ensures StripNews(a + b) == StripNews(a) + StripNews(b)
  {
    if |a| > 0 {
      assert (a + b)[1..] == a[1..] + b;
      StripNewsConcat(a[1..], b);
    } else {
      assert a + b == b;
    }
  }

  /** The news items of two runs of cards are those of the first, then the second. */
  lemma {:induction false} NewsItemsConcat(a: seq<Card>, b: seq<Card>)
    ensures NewsItems(a + b) == NewsItems(a) + NewsItems(b)
  {
    if |a| > 0 {
      assert (a + b)[1..] == a[1..] + b;
      NewsItemsConcat(a[1..], b);
    } else {
      assert a + b == b;
    }
  }

  /** Each card is a post or a news card. */
  lemma {:induction false} CardsArePostsAndNews(cards: seq<Card>)
    ensures |cards| == |StripNews(cards)| + |NewsItems(cards)|
  {
    if |cards| > 0 {
      CardsArePostsAndNews(cards[1..]);
    }
  }

  /** One more post brings one more news card exactly when it makes the
      counter a multiple of five. */
  lemma NewsCountStep(postCount: nat, added: nat)
    requires added >= 1
    ensures NewsCount(postCount, added)
         == NewsCount(postCount + 1, added - 1) + (if NewsDue(postCount + 1) then 1 else 0)
  {
  }

  /** A run of rotator positions is its first position, then the run from the next cursor. */
  lemma NewsRunStep(cursor: nat, count: nat)
    requires count >= 1
    ensures NewsRun(cursor, count) == [NewsSlot(cursor)] + NewsRun(cursor + 1, count - 1)
  {
  }

  /** Leaving out the news cards gives back the posts. */
  lemma {:induction false} InterleaveKeepsPosts(posts: seq<Card>, postCount: nat, newsIndex: nat)
    requires forall i :: 0 <= i < |posts| ==> posts[i].PostCard?
    ensures StripNews(Interleave(posts, postCount, newsIndex)) == posts
  {
    if |posts| > 0 {
      var count := postCount + 1;
      var index := if NewsDue(count) then newsIndex + 1 else newsIndex;
      var rest := Interleave(posts[1..], count, index);
      var head := if NewsDue(count) then [posts[0], NewsCard(NextNews(newsIndex).index)] else [posts[0]];
      assert Interleave(posts, postCount, newsIndex) == head + rest;
      InterleaveKeepsPosts(posts[1..], count, index);
      StripNewsConcat(head, rest);
      assert StripNews(head) == [posts[0]] by {
        if |head| == 2 {
          assert head[1..][1..] == [];
        }
      }
    }
  }

  /** The news cards carry the rotator's items from `newsIndex` on, one per
      multiple of five the counter reaches. */
  lemma {:induction false} InterleaveNews(posts: seq<Card>, postCount: nat, newsIndex: nat)
    requires forall i :: 0 <= i < |posts| ==> posts[i].PostCard?
    ensures NewsItems(Interleave(posts, postCount, newsIndex)) == NewsRun(newsIndex, NewsCount(postCount, |posts|))
  {
    if |posts| > 0 {
      var count := postCount + 1;
      var index := if NewsDue(count) then newsIndex + 1 else newsIndex;
      var rest := Interleave(posts[1..], count, index);
      var head := if NewsDue(count) then [posts[0], NewsCard(NextNews(newsIndex).index)] else [posts[0]];
      assert Interleave(posts, postCount, newsIndex) == head + rest;
      InterleaveNews(posts[1..], count, index);
      NewsItemsConcat(head, rest);
      NewsCountStep(postCount, |posts|);
      if NewsDue(count) {
        assert NewsItems(head) == [NewsSlot(newsIndex)] by {
          assert head[1..][1..] == [];
        }
        NewsRunStep(newsIndex, NewsCount(postCount, |posts|));
      }
    }
  }

  /** Each card is a news card exactly when it follows a post that brought
      the counter, starting at `postCount`, to a multiple of five. */
  predicate WellPlaced(cards: seq<Card>, postCount: nat) {
    forall i :: 0 <= i < |cards| ==>
      (cards[i].NewsCard? <==>
        i > 0 && cards[i - 1].PostCard? && NewsDue(postCount + |StripNews(cards[..i])|))
  }

  /** The cards before position `i` of `head + rest`, past the head, hold the
      head's posts and the posts of `rest` before `i - |head|`. */
  lemma PostsBeforeConcat(head: seq<Card>, rest: seq<Card>, i: nat)
    requires |head| <= i <= |head| + |rest|
    ensures |StripNews((head + rest)[..i])| == |StripNews(head)| + |StripNews(rest[..i - |head|])|
  {
    assert (head + rest)[..i] == head + rest[..i - |head|];
    StripNewsConcat(head, rest[..i - |head|]);
  }

  /** The head of `WellPlacedCons`: a post, then a news card exactly when the
      post reaches a multiple of five. */
  predicate PostHead(head: seq<Card>, postCount: nat) {
    && |head| >= 1 && head[0].PostCard?
    && (NewsDue(postCount + 1) ==> |head| == 2 && head[1].NewsCard?)
    && (!NewsDue(postCount + 1) ==> |head| == 1)
  }

  lemma StripNewsOfPostHead(head: seq<Card>, postCount: nat)
    requires PostHead(head, postCount)
    ensures StripNews(head) == [head[0]]
  {
    if |head| == 2 {
      assert head[1..][1..] == [];
    }
  }

  /** The placement condition at one position of `head + rest`. */
  lemma WellPlacedConsAt(head: seq<Card>, rest: seq<Card>, postCount: nat, i: nat)
    requires PostHead(head, postCount)
    requires |rest| > 0 ==> rest[0].PostCard?
    requires WellPlaced(rest, postCount + 1)
    requires i < |head| + |rest|
    ensures var cards := head + rest;
            cards[i].NewsCard? <==>
              i > 0 && cards[i - 1].PostCard? && NewsDue(postCount + |StripNews(cards[..i])|)
  {
    var cards := head + rest;
    StripNewsOfPostHead(head, postCount);
    if i == 0 {
    } else if i < |head| {
      assert cards[..1] == [head[0]];
    } else {
      var j := i - |head|;
      PostsBeforeConcat(head, rest, i);
      assert cards[i] == rest[j];
      if j > 0 {
        assert cards[i - 1] == rest[j - 1];
      }
    }
  }

  /** Putting a post, and a news card when that post reaches a multiple of
      five, in front of well-placed cards that start with a post keeps them
      well placed. */
  lemma WellPlacedCons(head: seq<Card>, rest: seq<Card>, postCount: nat)
    requires PostHead(head, postCount)
    requires |rest| > 0 ==> rest[0].PostCard?
    requires WellPlaced(rest, postCount + 1)
    ensures WellPlaced(head + rest, postCount)
  {
    forall i | 0 <= i < |head| + |rest|
      ensures var cards := head + rest;
              cards[i].NewsCard? <==>
                i > 0 && cards[i - 1].PostCard? && NewsDue(postCount + |StripNews(cards[..i])|)
    {
      WellPlacedConsAt(head, rest, postCount, i);
    }
  }

  /** The interleaved cards are well placed. */
  lemma {:induction false} InterleavePlacement(posts: seq<Card>, postCount: nat, newsIndex: nat)
    requires forall i :: 0 <= i < |posts| ==> posts[i].PostCard?
    ensures WellPlaced(Interleave(posts, postCount, newsIndex), postCount)
  {
    if |posts| > 0 {
      var count := postCount + 1;
      var index := if NewsDue(count) then newsIndex + 1 else newsIndex;
      var rest := Interleave(posts[1..], count, index);
      var head := if NewsDue(count) then [posts[0], NewsCard(NextNews(newsIndex).index)] else [posts[0]];
      assert Interleave(posts, postCount, newsIndex) == head + rest;
      InterleavePlacement(posts[1..], count, index);
      assert PostHead(head, postCount);
      WellPlacedCons(head, rest, postCount);
    }
  }

  /** The news cards of two consecutive stretches of posts add up. */
  lemma {:induction false} NewsCountAdd(postCount: nat, midCount: nat, a: nat, b: nat, total: nat)
    requires midCount == postCount + a && total == a + b
    ensures NewsCount(postCount, total) == NewsCount(postCount, a) + NewsCount(midCount, b)
    decreases a
  {
    if a > 0 {
      NewsCountAdd(postCount + 1, midCount, a - 1, b, total - 1);
    }
  }

  /** The news cards that `added` posts bring are the multiples of five in
      `postCount + 1 .. postCount + added`. */
  lemma {:induction false} NewsCountIsMultiples(postCount: nat, added: nat)
    ensures NewsCount(postCount, added) == (postCount + added) / 5 - postCount / 5
    decreases added
  {
    if added > 0 {
      NewsCountIsMultiples(postCount + 1, added - 1);
      var p := postCount;
      assert (p + 1) / 5 - p / 5 == if (p + 1) % 5 == 0 then 1 else 0;
    }
  }

  /** Interleaving two runs of posts one after the other is interleaving
      their concatenation. */
  lemma {:induction false} InterleaveConcat(a: seq<Card>, b: seq<Card>, postCount: nat, newsIndex: nat,
                                          midCount: nat, midIndex: nat)
    requires midCount == postCount + |a| && midIndex == newsIndex + NewsCount(postCount, |a|)
    ensures Interleave(a + b, postCount, newsIndex)
         == Interleave(a, postCount, newsIndex) + Interleave(b, midCount, midIndex)
  {
    if |a| == 0 {
      assert a + b == b;
    } else {
      var ab := a + b;
      assert ab[0] == a[0] && ab[1..] == a[1..] + b;
      var count := postCount + 1;
      var index := newsIndex + NewsCount(postCount, 1);
      NewsCountStep(postCount, |a|);
      InterleaveCons(a, postCount, newsIndex);
      InterleaveCons(ab, postCount, newsIndex);
      InterleaveConcat(a[1..], b, count, index, midCount, midIndex);
      JoinRuns(Interleave(ab, postCount, newsIndex), Interleave(a, postCount, newsIndex),
               Interleave([a[0]], postCount, newsIndex), Interleave(a[1..], count, index),
               Interleave(b, midCount, midIndex));
    }
  }

  /** The interleaving of a batch is that of its first post followed by that
      of the rest, with the counters moved on by the first post. */
  lemma InterleaveCons(posts: seq<Card>, postCount: nat, newsIndex: nat)
    requires |posts| > 0
    ensures Interleave(posts, postCount, newsIndex)
         == Interleave([posts[0]], postCount, newsIndex)
            + Interleave(posts[1..], postCount + 1, newsIndex + NewsCount(postCount, 1))
  {
    SingleInterleave(posts[0], postCount, newsIndex);
  }

  /** One iteration of the loop appends the interleaving of that slot's posts. */
  lemma SlotStepIsInterleave(s: Session, slot: Slot)
    requires !Throws(slot)
    ensures var posts := Posts([slot], s.favorites);
            var step := SlotStep(s, slot);
            && step.Stepped?
            && step.cards == Interleave(posts, s.postCount, s.newsIndex)
            && step.session.postCount == s.postCount + |posts|
            && step.session.newsIndex == s.newsIndex + NewsCount(s.postCount, |posts|)
  {
    var posts := Posts([slot], s.favorites);
    PostsSingle(slot, s.favorites);
    match SlotPost(slot, s.favorites) {
      case None =>
        SkippedSlotStep(s, slot);
        assert posts == [];
      case Some(card) =>
        PostedSlotStep(s, slot, card);
        assert posts == [card];
    }
  }

  /** A slot whose fetch failed leaves the state as it was. */
  lemma SkippedSlotStep(s: Session, slot: Slot)
    requires !Throws(slot) && SlotPost(slot, s.favorites).None?
    ensures SlotStep(s, slot) == Stepped(s, [])
  {
  }

  /** A slot that yields a post counts it and appends it, with its news card
      when one is due. */
  lemma PostedSlotStep(s: Session, slot: Slot, card: Card)
    requires SlotPost(slot, s.favorites) == Some(card)
    ensures SlotStep(s, slot)
         == Stepped(s.(postCount := s.postCount + 1, newsIndex := s.newsIndex + NewsCount(s.postCount, 1)),
                    Interleave([card], s.postCount, s.newsIndex))
  {
    SingleInterleave(card, s.postCount, s.newsIndex);
  }

  /** A single post is followed by a news card exactly when it completes a
      run of five. */
  lemma SingleInterleave(card: Card, postCount: nat, newsIndex: nat)
    ensures NewsCount(postCount, 1) == if NewsDue(postCount + 1) then 1 else 0
    ensures Interleave([card], postCount, newsIndex)
         == if NewsDue(postCount + 1) then [card, NewsCard(NextNews(newsIndex).index)] else [card]
  {
    assert [card][1..] == [];
  }

  /** The loop over the slots appends, in slot order, the post of each fetched
      article with the news cards interleaved, and advances both counters. */
  lemma {:induction false} RunSlotsIsInterleave(s: Session, slots: seq<Slot>)
    requires Renderable(slots)
    decreases |slots|
    ensures var posts := Posts(slots, s.favorites);
            var b := RunSlots(s, slots);
            && b.cards == Interleave(posts, s.postCount, s.newsIndex)
            && b.session.postCount == s.postCount + |posts|
            && b.session.newsIndex == s.newsIndex + NewsCount(s.postCount, |posts|)
  {
    if |slots| == 0 {
      return;
    }
    var rest := slots[1..];
    assert Renderable(rest) by {
      assert forall i :: 0 <= i < |rest| ==> rest[i] == slots[i + 1];
    }
    var head := Posts([slots[0]], s.favorites);
    var restPosts := Posts(rest, s.favorites);
    assert Posts(slots, s.favorites) == head + restPosts by {
      assert [slots[0]][1..] == [];
    }
    SlotStepIsInterleave(s, slots[0]);
    var step := SlotStep(s, slots[0]);
    var next := step.session;
    RunSlotsIsInterleave(next, rest);
    var after := RunSlots(next, rest);
    assert next.favorites == s.favorites;
    assert Posts(rest, next.favorites) == restPosts;
    assert RunSlots(s, slots) == Batch(after.session, step.cards + after.cards, after.threw);
    CombineRuns(head, restPosts, s.postCount, s.newsIndex, step.cards, next.postCount, next.newsIndex,
                after.cards, after.session.postCount, after.session.newsIndex);
  }

  /** Two consecutive stretches of the loop, each an interleaving, make one. */
  lemma CombineRuns(head: seq<Card>, rest: seq<Card>, postCount: nat, newsIndex: nat,
                    headCards: seq<Card>, midCount: nat, midIndex: nat,
                    restCards: seq<Card>, endCount: nat, endIndex: nat)
    requires headCards == Interleave(head, postCount, newsIndex)
    requires midCount == postCount + |head| && midIndex == newsIndex + NewsCount(postCount, |head|)
    requires restCards == Interleave(rest, midCount, midIndex)
    requires endCount == midCount + |rest| && endIndex == midIndex + NewsCount(midCount, |rest|)
    ensures headCards + restCards == Interleave(head + rest, postCount, newsIndex)
    ensures endCount == postCount + |head + rest|
    ensures endIndex == newsIndex + NewsCount(postCount, |head + rest|)
  {
    InterleaveConcat(head, rest, postCount, newsIndex, midCount, midIndex);
    NewsCountAdd(postCount, midCount, |head|, |rest|, |head + rest|);
  }

  /** One slot yields its post, or nothing when the fetch failed. */
  lemma PostsSingle(slot: Slot, favorites: seq<Article>)
    ensures Posts([slot], favorites)
         == if SlotPost(slot, favorites).Some? then [SlotPost(slot, favorites).value] else []
  {
    assert [slot][1..] == [];
  }

  /** The posts of two runs of slots are the posts of the first run followed
      by those of the second. */
  lemma {:induction false} PostsConcat(a: seq<Slot>, b: seq<Slot>, favorites: seq<Article>)
    ensures Posts(a + b, favorites) == Posts(a, favorites) + Posts(b, favorites)
    decreases |a|
  {
    if |a| == 0 {
      assert a + b == b;
    } else {
      var ab := a + b;
      assert ab[0] == a[0] && ab[1..] == a[1..] + b;
      var head := Posts([a[0]], favorites);
      var front := Posts(a[1..], favorites);
      var back := Posts(b, favorites);
      PostsCons(a, favorites);
      PostsCons(ab, favorites);
      PostsConcat(a[1..], b, favorites);
      JoinRuns(Posts(ab, favorites), Posts(a, favorites), head, front, back);
    }
  }

  /** A run of slots yields the post of its first slot, then those of the rest. */
  lemma PostsCons(slots: seq<Slot>, favorites: seq<Article>)
    requires |slots| > 0
    ensures Posts(slots, favorites) == Posts([slots[0]], favorites) + Posts(slots[1..], favorites)
  {
    assert [slots[0]][1..] == [];
  }

  /** Re-associates `head + (front + back)` as `(head + front) + back`; kept
      apart so the induction steps stay small. */
  lemma JoinRuns(whole: seq<Card>, first: seq<Card>, head: seq<Card>, front: seq<Card>, back: seq<Card>)
    requires whole == head + (front + back) && first == head + front
    ensures whole == first + back
  {
  }

  /** One loop iteration keeps the rotator in step with the counter. */
  lemma SlotStepKeepsConsistent(s: Session, slot: Slot)
    requires Consistent(s)
    ensures SlotStep(s, slot).Stepped? ==> Consistent(SlotStep(s, slot).session)
  {
    var step := SlotStep(s, slot);
    if step.Stepped? && step.session.postCount != s.postCount {
      ConsistentStep(s.postCount, s.newsIndex, step.session.postCount, step.session.newsIndex);
    }
  }

  /** One more post moves the count of multiples of five by one exactly
      when it reaches one. */
  lemma ConsistentStep(postCount: nat, newsIndex: nat, count: nat, index: nat)
    requires newsIndex == postCount / 5 && count == postCount + 1
    requires index == newsIndex + (if NewsDue(count) then 1 else 0)
    ensures index == count / 5
  {
  }

  /** The loop keeps the rotator in step with the counter, also when it throws. */
  lemma {:induction false} RunSlotsKeepsConsistent(s: Session, slots: seq<Slot>)
    requires Consistent(s)
    ensures Consistent(RunSlots(s, slots).session)
    decreases |slots|
  {
    if |slots| > 0 {
      SlotStepKeepsConsistent(s, slots[0]);
      var step := SlotStep(s, slots[0]);
      if step.Stepped? {
        RunSlotsKeepsConsistent(step.session, slots[1..]);
      }
    }
  }

  /** Every call of `loadPosts` (refused, completed or thrown) keeps the
      rotator in step with the counter; with `ResetState` establishing it,
      `newsIndex` is always `postCount / 5`. */
  lemma LoadPostsKeepsConsistent(s: Session, slots: seq<Slot>)
    requires Consistent(s)
    ensures Consistent(LoadPosts(s, slots).session)
  {
    if !s.loading {
      RunSlotsKeepsConsistent(s.(loading := true), slots);
    }
  }

  /** While a batch is in flight, `loadPosts` changes nothing and adds no cards. */
  lemma LoadPostsWhileLoading(s: Session, slots: seq<Slot>)
    requires s.loading
    ensures LoadPosts(s, slots) == Batch(s, [], false)
  {
  }

  /** A call made after another call has started, and before it finished,
      is ignored: only the first batch's cards appear. */
  lemma OverlappingCallIgnored(s: Session, first: seq<Slot>, second: seq<Slot>)
    requires !s.loading
    ensures var started := StartBatch(s).session;
            && LoadPosts(started, second) == Batch(started, [], false)
            && LoadPosts(s, first) == FinishBatch(started, first)
  {
  }

  /** A batch whose slots all render: the posts of the fetched articles
      appear in slot order, a news card follows each post that makes the
      counter a multiple of five, the counter grows by the number of posts,
      the loaded count by the number of slots, and the guard is cleared. */
  lemma LoadPostsBatch(s: Session, slots: seq<Slot>)
    requires !s.loading
    requires Renderable(slots)
    ensures var b := LoadPosts(s, slots);
            var posts := Posts(slots, s.favorites);
            && !b.threw
            && b.session == s.(postCount := s.postCount + |posts|,
                               newsIndex := s.newsIndex + NewsCount(s.postCount, |posts|),
                               articlesLoaded := s.articlesLoaded + |slots|)
            && StripNews(b.cards) == posts
            && NewsItems(b.cards) == NewsRun(s.newsIndex, NewsCount(s.postCount, |posts|))
            && WellPlaced(b.cards, s.postCount)
  {
    var started := s.(loading := true);
    var posts := Posts(slots, s.favorites);
    RunSlotsIsInterleave(started, slots);
    assert LoadPosts(s, slots) == FinishBatch(started, slots);
    InterleaveKeepsPosts(posts, s.postCount, s.newsIndex);
    InterleaveNews(posts, s.postCount, s.newsIndex);
    InterleavePlacement(posts, s.postCount, s.newsIndex);
  }

  /** A fetched article without an extract makes the batch throw: the guard
      stays set, the batch is not counted as loaded, and every later call is
      ignored. */
  lemma LoadPostsThrowing(s: Session, slots: seq<Slot>, later: seq<Slot>)
    requires !s.loading
    requires !Renderable(slots)
    ensures var b := LoadPosts(s, slots);
            && b.threw
            && b.session.loading
            && b.session.articlesLoaded == s.articlesLoaded
            && LoadPosts(b.session, later) == Batch(b.session, [], false)
  {
  }

  /** Slots whose fetches all fail yield no posts. */
  lemma {:induction false} PostsAllFailed(slots: seq<Slot>, favorites: seq<Article>)
    requires forall i :: 0 <= i < |slots| ==> FetchRandomWikipedia(slots[i].response).None?
    ensures Posts(slots, favorites) == []
  {
    if |slots| > 0 {
      assert forall i :: 0 <= i < |slots| - 1 ==> slots[1..][i] == slots[i + 1];
      PostsAllFailed(slots[1..], favorites);
    }
  }

  /** Slots that all yield a post give one post per slot, in slot order. */
  lemma {:induction false} PostsAllFetched(slots: seq<Slot>, favorites: seq<Article>)
    requires forall i :: 0 <= i < |slots| ==> SlotPost(slots[i], favorites).Some?
    ensures var posts := Posts(slots, favorites);
            |posts| == |slots| && forall i :: 0 <= i < |slots| ==> posts[i] == SlotPost(slots[i], favorites).value
  {
    if |slots| > 0 {
      var rest := slots[1..];
      assert forall i :: 0 <= i < |rest| ==> rest[i] == slots[i + 1];
      PostsAllFetched(rest, favorites);
      PostsCons(slots, favorites);
      assert SlotPost(slots[0], favorites).Some?;
      PostsSingle(slots[0], favorites);
    }
  }

  /** A batch whose fetches all fail: no cards, the counter unchanged, the
      guard cleared so that the next batch is accepted. */
  lemma FailedBatchReleasesGuard(s: Session, slots: seq<Slot>)
    requires !s.loading
    requires forall i :: 0 <= i < |slots| ==> FetchRandomWikipedia(slots[i].response).None?
    ensures var b := LoadPosts(s, slots);
            && b.cards == []
            && b.session.postCount == s.postCount
            && !b.session.loading
            && StartBatch(b.session).Started?
  {
    PostsAllFailed(slots, s.favorites);
    assert Renderable(slots);
    LoadPostsBatch(s, slots);
  }

  /** Five posts from a multiple of five: the fifth is followed by the
      rotator's next news card and no other news card appears. */
  lemma InterleaveFive(posts: seq<Card>, postCount: nat, newsIndex: nat)
    requires |posts| == 5 && NewsDue(postCount)
    ensures Interleave(posts, postCount, newsIndex) == posts + [NewsCard(NextNews(newsIndex).index)]
  {
    var news := NewsCard(NextNews(newsIndex).index);
    assert !NewsDue(postCount + 1) && !NewsDue(postCount + 2) && !NewsDue(postCount + 3);
    assert !NewsDue(postCount + 4) && NewsDue(postCount + 5);
    assert posts[5..] == [];
    var c4 := Interleave(posts[4..], postCount + 4, newsIndex);
    assert c4 == [posts[4], news] by {
      assert posts[4..][1..] == posts[5..];
      assert Interleave(posts[5..], postCount + 5, newsIndex + 1) == [];
    }
    var c3 := Interleave(posts[3..], postCount + 3, newsIndex);
    assert c3 == [posts[3]] + c4 by {
      assert posts[3..][1..] == posts[4..];
    }
    var c2 := Interleave(posts[2..], postCount + 2, newsIndex);
    assert c2 == [posts[2]] + c3 by {
      assert posts[2..][1..] == posts[3..];
    }
    var c1 := Interleave(posts[1..], postCount + 1, newsIndex);
    assert c1 == [posts[1]] + c2 by {
      assert posts[1..][1..] == posts[2..];
    }
    assert Interleave(posts, postCount, newsIndex) == [posts[0]] + c1;
    assert [posts[0]] + ([posts[1]] + ([posts[2]] + ([posts[3]] + [posts[4], news]))) == posts + [news];
  }

  /** Slots that all yield a post throw nowhere. */
  lemma FetchedIsRenderable(slots: seq<Slot>, favorites: seq<Article>)
    requires forall i :: 0 <= i < |slots| ==> SlotPost(slots[i], favorites).Some?
    ensures Renderable(slots)
  {
    forall i | 0 <= i < |slots| ensures !Throws(slots[i]) {
      assert SlotPost(slots[i], favorites).Some?;
    }
  }

  /** After a reset, a batch of five fetched articles shows five posts and
      then the first news item. */
  lemma FirstFullBatch(slots: seq<Slot>)
    requires |slots| == DefaultCount
    requires forall i :: 0 <= i < |slots| ==> SlotPost(slots[i], []).Some?
    ensures var b := LoadPosts(ResetState(), slots);
            && |b.cards| == 6
            && (forall i :: 0 <= i < 5 ==> b.cards[i].PostCard?)
            && b.cards[5] == NewsCard(0)
            && b.session.postCount == 5
            && b.session.newsIndex == 1
            && !b.session.loading
  {
    var s := ResetState();
    PostsAllFetched(slots, []);
    var posts := Posts(slots, []);
    FetchedIsRenderable(slots, []);
    RunSlotsIsInterleave(s.(loading := true), slots);
    InterleaveFive(posts, 0, 0);
    NewsCountIsMultiples(0, 5);
    var b := LoadPosts(s, slots);
    assert b.cards == posts + [NewsCard(0)];
  }
}

=== FILE: news.dfy ===
/** The news rotator: a cursor into a fixed list of promotional items that
    hands out one item per call and wraps around. */
module News {

  datatype NewsItem = NewsItem(headline: string, source: string, url: string)

  /** The fixed promotional list, in its order. */
  const NewsArticles: seq<NewsItem> := [
    NewsItem("Tech Giants Face New AI Regulation Proposals in EU", "Reuters",
      "https://news.google.com/topics/CAAqJggKIiBDQkFTRWdvSUwyMHZNRGx6TVdZU0FtVnVHZ0pWVXlnQVAB"),
    NewsItem("Global Climate Summit Reaches Historic Carbon Agreement", "AP News",
      "https://news.google.com/topics/CAAqJggKIiBDQkFTRWdvSUwyMHZNRGs0ZERWU0FtVnVHZ0pWVXlnQVAB"),
    NewsItem("Quantum Computing Breakthrough Announced by Research Team", "Science Daily",
      "https://news.google.com/topics/CAAqJggKIiBDQkFTRWdvSUwyMHZNRGx1YlY4U0FtVnVHZ0pWVXlnQVAB"),
    NewsItem("Stock Markets Rally on Economic Growth Data", "Financial Times",
      "https://news.google.com/topics/CAAqJggKIiBDQkFTRWdvSUwyMHZNRGx6TVdZU0FtVnVHZ0pWVXlnQVAB"),
    NewsItem("New Archaeological Discovery Challenges Historical Timeline", "National Geographic",
      "https://news.google.com/topics/CAAqJggKIiBDQkFTRWdvSUwyMHZNREpxYW5RU0FtVnVHZ0pWVXlnQVAB")
  ]

  /** The position in `NewsArticles` a cursor points at: `newsIndex % newsArticles.length`. */
  function NewsSlot(cursor: nat): nat {
    cursor % 5
  }

  /** The position handed out and the cursor after one call. */
  datatype Rotated = Rotated(index: nat, cursor: nat)

  /** `createNewsPost`'s cursor logic: hand out the current position, then advance. */
  function NextNews(cursor: nat): (r: Rotated)
    ensures r.index < 5 && r.cursor == cursor + 1
    ensures NewsSlot(r.cursor) == (r.index + 1) % 5
  {
    Rotated(NewsSlot(cursor), cursor + 1)
  }

  /** The positions `count` consecutive calls hand out, starting at `cursor`. */
  function NewsRun(cursor: nat, count: nat): (indices: seq<nat>)
    ensures |indices| == count
    ensures forall i :: 0 <= i < count ==> indices[i] == (cursor + i) % 5
    decreases count
  {
    if count == 0 then [] else [NewsSlot(cursor)] + NewsRun(cursor + 1, count - 1)
  }

  /** `count` consecutive calls from `cursor`: the i-th hands out
      `NewsArticles[(cursor + i) % 5]` and the cursor ends `count` further on. */
  method RotateNews(cursor: nat, count: nat) returns (items: seq<NewsItem>, final: nat)
    ensures |items| == count
    ensures forall i :: 0 <= i < count ==> items[i] == NewsArticles[(cursor + i) % 5]
    ensures final == cursor + count
  {
    items := [];
    final := cursor;
    while |items| < count
      invariant |items| <= count
      invariant final == cursor + |items|
      invariant forall i :: 0 <= i < |items| ==> items[i] == NewsArticles[(cursor + i) % 5]
    {
      var next := NextNews(final);
      items := items + [NewsArticles[next.index]];
      final := next.cursor;
    }
  }

  /** The rotation repeats every five calls: the sixth call hands out the
      first call's item again. */
  lemma RotationWrapsAround(cursor: nat)
    ensures NextNews(cursor + 5).index == NextNews(cursor).index
  {
  }
}

=== FILE: optional.dfy ===
/** Values that JavaScript may leave `undefined` or `null`. */
module Optional {

  /** `None` stands for a missing (`undefined`) or `null` value. */
  datatype Option<+T> = None | Some(value: T)
}

=== FILE: strings.dfy ===
/** The JavaScript string operations that `truncateText` relies on:
    `lastIndexOf` of one character, `split` on one character and `join`. */
module Strings {

  /** `s.lastIndexOf(c)`: the index of the last `c` in `s`, or -1 when there is none. */
  function LastIndexOf(s: string, c: char): (r: int)
    ensures -1 <= r < |s|
    ensures r >= 0 ==> s[r] == c
    ensures forall j :: r < j < |s| ==> s[j] != c
  {
    if |s| == 0 then -1
    else if s[|s| - 1] == c then |s| - 1
    else LastIndexOf(s[..|s| - 1], c)
  }

  /** `parts.join(sep)`: the parts with one `sep` between neighbours. */
  function Join(parts: seq<string>, sep: char): (r: string)
    ensures |parts| == 0 ==> r == ""
    ensures |parts| >= 1 ==> parts[0] <= r
    ensures |parts| >= 2 ==> |r| > |parts[0]| && r[|parts[0]|] == sep
  {
    if |parts| == 0 then ""
    else if |parts| == 1 then parts[0]
    else parts[0] + [sep] + Join(parts[1..], sep)
  }

  /** `s.split(sep)` scanning left to right. The parts contain no `sep`,
      there is always at least one, and joining them gives `s` back. */
  function Split(s: string, sep: char): (parts: seq<string>)
    ensures |parts| >= 1
    ensures forall i :: 0 <= i < |parts| ==> sep !in parts[i]
    ensures Join(parts, sep) == s
  {
    if |s| == 0 then [""]
    else
      var rest := Split(s[1..], sep);
      if s[0] == sep then
        assert Join([""] + rest, sep) == [sep] + Join(rest, sep);
        [""] + rest
      else
        JoinExtendsHead(s[0], rest, sep);
        assert s == [s[0]] + s[1..];
        [[s[0]] + rest[0]] + rest[1..]
  }

  /** Prefixing the first part with `c` prefixes the joined string with `c`. */
  lemma JoinExtendsHead(c: char, parts: seq<string>, sep: char)
    requires |parts| >= 1
    ensures Join([[c] + parts[0]] + parts[1..], sep) == [c] + Join(parts, sep)
  {
    var extended := [[c] + parts[0]] + parts[1..];
    assert extended[1..] == parts[1..];
  }

  /** If the tail of `s` holds a `c`, the last `c` of `s` is one further along;
      otherwise it is the head or nowhere. */
  lemma LastIndexOfTail(s: string, c: char)
    requires |s| >= 1
    ensures LastIndexOf(s[1..], c) >= 0 ==> LastIndexOf(s, c) == LastIndexOf(s[1..], c) + 1
    ensures LastIndexOf(s[1..], c) < 0 ==> LastIndexOf(s, c) == (if s[0] == c then 0 else -1)
  {
    var b := LastIndexOf(s[1..], c);
    if b >= 0 {
      assert s[b + 1] == c;
    }
  }

  /** `s.split(sep)` has a single part exactly when `s` holds no `sep`. */
  lemma SplitSingleIffNoSep(s: string, sep: char)
    ensures |Split(s, sep)| == 1 <==> LastIndexOf(s, sep) < 0
  {
    var parts := Split(s, sep);
    if |parts| == 1 {
      assert s == parts[0];
    } else {
      assert s == parts[0] + [sep] + Join(parts[1..], sep);
      assert s[|parts[0]|] == sep;
    }
  }

  /** Dropping the last part commutes with a leading empty part. */
  lemma DropLastAfterEmpty(rest: seq<string>, sep: char)
    requires |rest| >= 2
    ensures var parts := [""] + rest;
            Join(parts[..|parts| - 1], sep) == [sep] + Join(rest[..|rest| - 1], sep)
  {
    var parts := [""] + rest;
    var init := rest[..|rest| - 1];
    assert parts[..|parts| - 1] == [""] + init;
    assert ([""] + init)[1..] == init;
  }

  /** Dropping the last part commutes with extending the first part. */
  lemma DropLastAfterExtend(c: char, rest: seq<string>, sep: char)
    requires |rest| >= 2
    ensures var parts := [[c] + rest[0]] + rest[1..];
            Join(parts[..|parts| - 1], sep) == [c] + Join(rest[..|rest| - 1], sep)
  {
    var parts := [[c] + rest[0]] + rest[1..];
    var init := rest[..|rest| - 1];
    assert parts[..|parts| - 1] == [[c] + init[0]] + init[1..];
    JoinExtendsHead(c, init, sep);
  }

  /** One step of the left-to-right scan of `Split`. */
  lemma SplitStep(s: string, sep: char)
    requires |s| >= 1
    ensures var rest := Split(s[1..], sep);
            Split(s, sep) == if s[0] == sep then [""] + rest else [[s[0]] + rest[0]] + rest[1..]
  {
  }

  /** The text of `s` before its last `c`, or the empty string when `s` has no `c`. */
  function BeforeLast(s: string, c: char): (r: string)
    ensures r <= s
  {
    var last := LastIndexOf(s, c);
    if last < 0 then "" else s[..last]
  }

  /** `s.split(sep).slice(0, -1).join(sep)`, the JavaScript expression step by step. */
  function SplitDropLastJoin(s: string, sep: char): (r: string)
    ensures LastIndexOf(s, sep) < 0 ==> r == ""
  {
    var parts := Split(s, sep);
    SplitSingleIffNoSep(s, sep);
    Join(parts[..|parts| - 1], sep)
  }

  /** The shared inductive step of `JoinAllButLast` when the tail holds a `sep`. */
  lemma JoinAllButLastStep(s: string, sep: char)
    requires |s| >= 1
    requires |Split(s[1..], sep)| >= 2
    ensures SplitDropLastJoin(s, sep) == [s[0]] + SplitDropLastJoin(s[1..], sep)
  {
    var rest := Split(s[1..], sep);
    SplitStep(s, sep);
    if s[0] == sep {
      DropLastAfterEmpty(rest, sep);
    } else {
      DropLastAfterExtend(s[0], rest, sep);
    }
  }

  /** The text before the last `c` grows with a head character when the tail holds a `c`. */
  lemma BeforeLastStep(s: string, c: char)
    requires |s| >= 1
    requires LastIndexOf(s[1..], c) >= 0
    ensures BeforeLast(s, c) == [s[0]] + BeforeLast(s[1..], c)
  {
    var restLast := LastIndexOf(s[1..], c);
    LastIndexOfTail(s, c);
    assert s[..restLast + 1] == [s[0]] + s[1..][..restLast];
  }

  /** `s.split(sep).slice(0, -1).join(sep)` is the part of `s` before its
      last `sep`, and the empty string when `s` holds no `sep`. */
  lemma {:induction false} JoinAllButLast(s: string, sep: char)
    ensures SplitDropLastJoin(s, sep) == BeforeLast(s, sep)
  {
    if |s| == 0 {
      return;
    }
    var rest := Split(s[1..], sep);
    SplitSingleIffNoSep(s[1..], sep);
    if |rest| >= 2 {
      JoinAllButLast(s[1..], sep);
      JoinAllButLastStep(s, sep);
      BeforeLastStep(s, sep);
    } else {
      LastIndexOfTail(s, sep);
      SplitStep(s, sep);
    }
  }
}

=== FILE: truncate.dfy ===
/** `truncateText`: bounds an excerpt to `maxLength` characters, preferring
    to cut after a sentence and otherwise at a word boundary with "...". */
module Truncate {
  import opened Strings

  /** The bound `createPost` passes, which is also the parameter's default. */
  const DefaultMaxLength: nat := 200

  /** `lastPeriod > maxLength * 0.6`, in integers. */
  predicate PastSixtyPercent(index: int, maxLength: nat) {
    5 * index > 3 * maxLength
  }

  /** Text short enough is returned unchanged; otherwise the result is a cut
      of the first `maxLength` characters: either up to and including their
      last '.', when that lies past 60% of `maxLength`, or the words before
      their last ' ' followed by "...". */
  function TruncateText(text: string, maxLength: nat): (r: string)
    ensures |text| <= maxLength ==> r == text
    ensures |r| <= maxLength + 3
  {
    if |text| <= maxLength then text
    else
      var shortened := text[..maxLength];
      var lastPeriod := LastIndexOf(shortened, '.');
      if PastSixtyPercent(lastPeriod, maxLength) then shortened[..lastPeriod + 1]
      else
        JoinAllButLast(shortened, ' ');
        SplitDropLastJoin(shortened, ' ') + "..."
  }

  /** A '.' at index `p` of the first `maxLength` characters, past the 60%
      mark and not followed by another '.' within them, ends the result:
      the text is cut right after it. */
  lemma TruncateAtPeriod(text: string, maxLength: nat, p: nat)
    requires |text| > maxLength
    requires p < maxLength && text[p] == '.'
    requires PastSixtyPercent(p, maxLength)
    requires forall j :: p < j < maxLength ==> text[j] != '.'
    ensures TruncateText(text, maxLength) == text[..p + 1]
    ensures |TruncateText(text, maxLength)| <= maxLength
    ensures TruncateText(text, maxLength)[p] == '.'
  {
    var shortened := text[..maxLength];
    var last := LastIndexOf(shortened, '.');
    assert shortened[p] == '.';
    assert last == p;
  }

  /** When no '.' among the first `maxLength` characters lies past the 60%
      mark and the last ' ' among them is at index `s`, the result is the
      text before that space followed by "...". */
  lemma TruncateAtSpace(text: string, maxLength: nat, s: nat)
    requires |text| > maxLength
    requires forall i :: 0 <= i < maxLength && text[i] == '.' ==> !PastSixtyPercent(i, maxLength)
    requires s < maxLength && text[s] == ' '
    requires forall j :: s < j < maxLength ==> text[j] != ' '
    ensures TruncateText(text, maxLength) == text[..s] + "..."
  {
    var shortened := text[..maxLength];
    var lastPeriod := LastIndexOf(shortened, '.');
    assert lastPeriod >= 0 ==> shortened[lastPeriod] == '.';
    assert shortened[s] == ' ';
    assert LastIndexOf(shortened, ' ') == s;
    JoinAllButLast(shortened, ' ');
  }

  /** When no '.' qualifies and the first `maxLength` characters hold no
      ' ' (an empty bound included), the result is just "...". */
  lemma TruncateWithoutSpace(text: string, maxLength: nat)
    requires |text| > maxLength
    requires forall i :: 0 <= i < maxLength && text[i] == '.' ==> !PastSixtyPercent(i, maxLength)
    requires forall j :: 0 <= j < maxLength ==> text[j] != ' '
    ensures TruncateText(text, maxLength) == "..."
  {
    var shortened := text[..maxLength];
    var lastPeriod := LastIndexOf(shortened, '.');
    assert lastPeriod >= 0 ==> shortened[lastPeriod] == '.';
    JoinAllButLast(shortened, ' ');
  }

  /** A cut that is not at a qualifying period always ends with "...", even
      when a '.' appears at or before the 60% mark. */
  lemma EarlyPeriodIgnored(text: string, maxLength: nat)
    requires |text| > maxLength
    requires forall i :: 0 <= i < maxLength && text[i] == '.' ==> !PastSixtyPercent(i, maxLength)
    ensures var r := TruncateText(text, maxLength);
            |r| >= 3 && r[|r| - 3..] == "..."
  {
    var shortened := text[..maxLength];
    var lastPeriod := LastIndexOf(shortened, '.');
    assert lastPeriod >= 0 ==> shortened[lastPeriod] == '.';
  }
}
